=== FILE: README.md ===
# Code assistant core — a verified Dafny model

The code assistant is a Flask service. It takes a natural-language instruction and optional
Python code, builds a prompt, and sends it to a model served by Ollama. It returns the code
found in the model's markdown reply along with the full reply. Each successful interaction goes
into a bounded, oldest-first history. This project models the decision logic of that service
as pure Dafny functions over immutable values:

- `results.dfy`: `Results`. `Option` and `Result`, used for absent keys and raised errors.
- `text.dfy`: `Text`. The Python string operations the extractor relies on: `in`, `count`,
  `split` and `startswith`. `FindFrom` and `Find` are the leftmost search on which `in`,
  `count` and `split` are built. Each operation is modelled exactly: left to right, with
  non-overlapping occurrences. Each has a declarative partner (first occurrence, no occurrence,
  `join` round trip).
- `extraction.dfy`: `Extraction`, which is `_extract_code`, and `ExtractionExamples`, which
  holds worked replies.
- `prompt.dfy`: `Prompt`. The default prompt template, the user's prompt function with its
  fallback, and the `"(no code provided)"` default.
- `generator.dfy`: `Generator`. The Ollama code generator: the configured model and the
  fallback to `llama3.2:1b`, `_init_model`, `is_model_available`, `set_model` and
  `generate_code`. The Ollama server is an oracle value `Backend` with four parts:
  - whether listing its models succeeds;
  - the names it lists, in the server's order;
  - the names a pull would fetch;
  - its answer to a generate request for a model and a prompt.
- `history.dfy`: `History`. `HistoryHandler` as a capacity and a `seq` of entries: appending to
  a full history drops the oldest entry.
- `assistant.dfy`: `Assistant`. The handlers of `CodeAssistantApp`. Each takes only what its
  source reads:
  - the state (generator and history), or the part of it it uses;
  - the oracle, when it contacts the server;
  - the request fields it reads.

  The health check takes only the oracle, and the history listing takes only the state.
  `Run` takes the application if `create_app` set one up. The two handlers that can change the
  state, instructions and model switch, give back the new state with the response. The model
  listing, history listing and health check give back only the HTTP status and body content.
  `Serve` runs a sequence of requests.

Facts about the code that its docstrings state differently, or that are easy to miss:

- Extraction trims nothing, although the docstring of `_extract_code`
  (app/generator.py:146) says leading and trailing whitespace is removed. A reply with fewer
  than two fences comes back unchanged. At most one leading newline is removed, and a
  trailing newline stays: `"Here:\n```python\nprint(1)\n```\nDone."` yields
  `"print(1)\n"`.
- A `"```python\n"` block wins over an earlier untagged block. Any other language tag stays in
  the code: `"```js\nx```"` yields `"js\nx"`.
- `get_history` lists the entries oldest first, the order they were added; its docstring
  (app/history.py:100) calls this chronological order.
- `HistoryEntry` holds the instruction, the code, the output code, the reply and a
  timestamp.
- A failed model switch answers 400 `"Invalid model name"` when the server is reachable. When
  the server is unreachable it answers 500, because listing raises.
- `generate_code` re-runs `_init_model` on every call while the generator is not initialized.
  Any fallback to the default model sticks. The result is discarded, so the flag stays unset
  until `set_model` succeeds.
- Extraction uses `split` on the Python tag, which cuts at the next `"```python\n"`. The code
  is therefore the text up to the next fence only when no `"```python\n"` starts inside that
  fence. `ExtractionExamples.BacktickRunAfterTag` shows a reply where one does, and
  `ExtractionExamples.FourBacktickClose` shows a longer backtick run that still closes the
  block.

## Model

| member | source | states |
|---|---|---|
| `Text.FindFrom` | app/generator.py:152-155 | the index found is the leftmost occurrence at or after the start; none found means no occurrence there |
| `Text.Find` | app/generator.py:152-155 | the leftmost occurrence of the separator, or its complete absence |
| `Text.Contains` | app/generator.py:152 | `tag in text` holds exactly when the tag occurs at some index |
| `Text.StartsWith` | app/generator.py:157 | `startswith` holds exactly when the prefix occurs at index 0 |
| `Text.CountFrom` | app/generator.py:149 | the non-overlapping count from a position is zero exactly when nothing occurs there |
| `Text.Count` | app/generator.py:149 | `count` is zero exactly when the fence never occurs |
| `Text.TwoOccurrences` | app/generator.py:149 | two occurrences that do not overlap make the count at least two |
| `Text.CountAtLeastTwo` | app/generator.py:149 | `count(sep) >= 2` holds exactly when two occurrences that do not overlap exist, which is the test guarding extraction |
| `Text.SplitFrom` | app/generator.py:153-155 | `split` from a position gives count+1 pieces that rejoin to the text, none holding the separator, and each cut falls at the leftmost separator (no occurrence starts inside a piece, even one overlapping the separator after it) |
| `Text.Split` | app/generator.py:153-155 | `split` gives count+1 pieces, `join` restores the text, no piece holds the separator, and each cut falls at the leftmost separator |
| `Extraction.DropNewline` | app/generator.py:157-158 | the result is a suffix, exactly one character shorter when the text starts with a newline and the whole text otherwise |
| `Extraction.Extract` | app/generator.py:148-160 | fewer than two fences: the reply unchanged; otherwise the code holds no fence |
| `Extraction.ExtractUntaggedBlock` | app/generator.py:155-158 | without a Python tag, the code is the text strictly between the first fence and the next, less one leading newline, with any language tag kept |
| `Extraction.ExtractPythonBlock` | app/generator.py:152-158 | with a Python tag followed by a fence, the code runs from just after the tag's first occurrence to that fence, less one leading newline, unless another tag starts inside that fence |
| `Extraction.PythonBlockUnclosed` | app/generator.py:152-158 | with a Python tag and no fence after it, the code is everything after the tag's first occurrence, less one leading newline |
| `Extraction.ExtractIdempotent` | app/generator.py:148-160 | extracting from extracted code changes nothing |
| `Extraction.ExtractIsSlice` | app/generator.py:148-160 | the code is always a contiguous slice of the reply |
| `ExtractionExamples.PythonBlockInProse` | app/generator.py:148-160 | the Python block inside prose yields `"print(1)\n"`, keeping its trailing newline |
| `ExtractionExamples.OtherLanguageKeepsTag` | app/generator.py:155-158 | a `js` block yields `"js\nx"`, keeping its tag |
| `ExtractionExamples.FourBacktickClose` | app/generator.py:152-158 | a closing fence inside `"````"` still ends the block: `"```python\nab````cd```"` yields `"ab"` |
| `ExtractionExamples.UnclosedPythonBlock` | app/generator.py:152-158 | a tag with no fence after it: `"```\n```python\nfoo"` yields `"foo"` |
| `ExtractionExamples.OnlyOneNewlineDropped` | app/generator.py:155-158 | of a block opening with two newlines only the first goes: `"```\n\nx```"` yields `"\nx"` |
| `ExtractionExamples.BacktickRunAfterTag` | app/generator.py:153 | when backticks directly follow the tag, the next fence is right there, yet the code is `"``"` |
| `Prompt.DefaultPrompt` | app/generator.py:113-116 | the prompt opens with the instruction header, closes with the generate request, and has the summed length |
| `Prompt.PromptRoundTrip` | app/generator.py:113-116 | the instruction and the code can be read back from the default prompt |
| `Prompt.PromptParseSound` | app/generator.py:113-116 | whatever reads back as an instruction and a code is exactly their default prompt |
| `Prompt.DefaultPromptInjective` | app/generator.py:113-116 | for instructions of equal length, equal prompts mean equal instructions and codes |
| `Prompt.GetPrompt` | app/generator.py:129-136 | the user's function's prompt when it returns one; the default prompt when there is no function or it raises |
| `Prompt.EffectiveCode` | app/generator.py:180 | a missing or empty code becomes `"(no code provided)"`; any other code is kept; the result is never empty |
| `Generator.ModelNames` | app/generator.py:203-212 | listing yields the listed names, in the server's order, when the server is reachable and raises a connection error otherwise |
| `Generator.CurrentModelName` | app/generator.py:214-221 | the model the generator holds, the one `set_model` installs and generation requests go to |
| `Generator.ServiceAvailable` | app/generator.py:223-239 | available exactly when listing the models succeeds; any raise reads as unavailable |
| `Generator.ModelAvailable` | app/generator.py:241-255 | a name is available exactly when it is listed or pullable; checking raises when the server is unreachable |
| `Generator.ConfiguredModel` | app/generator.py:61-63 | a falsy configured model becomes `llama3.2:1b`; any other is kept; never empty |
| `Generator.InitModel` | app/generator.py:74-86 | ready exactly when the model or the default is servable; the model becomes the default only when the model itself is not servable; a servable model is kept |
| `Generator.NewGenerator` | app/generator.py:61-86 | model is the configured one or the default; when reachable it is `_init_model`'s choice, so a servable configured model is kept; initialized exactly when reachable and one of them is servable; an initialized model is servable |
| `Generator.SetModel` | app/generator.py:257-265 | accepted exactly when the name is servable, then the current model is the name and the flag is set; a refusal leaves the generator unchanged |
| `Generator.GenerateCode` | app/generator.py:177-195 | lazy init keeps the flag and takes `_init_model`'s model, falling back to the default exactly when only the default is servable; the reply for that model and the built prompt decides the outcome; the output is the extraction of the reply |
| `Generator.ModelStaysNamed` | app/generator.py:257-265 | the current model never becomes empty through generation or switching, given a server that serves no "" model |
| `Generator.SetModelTwice` | app/generator.py:257-265 | a repeated switch is idempotent; a refused switch after an accepted one keeps the accepted model |
| `History.NewHistory` | app/history.py:61-79 | empty history; a positive capacity is kept, a non-positive one becomes 10 |
| `History.GetHistory` | app/history.py:95-102 | the stored entries in insertion order, never more than the capacity |
| `History.Add` | app/history.py:82-92 | the entry goes last; when full exactly the oldest is dropped; the rest keep their order; length stays within capacity |
| `History.AddAllKeepsNewest` | app/history.py:79-92 | after any appends the history is the newest `capacity` entries of all seen, in insertion order |
| `History.HistoryHoldsLastAppended` | app/history.py:79-102 | after N appends to a new history of capacity C, `get_history` lists the last min(N, C) appended, oldest first |
| `History.AddOnlyAppendsOrEvicts` | app/history.py:82-92 | an append only adds the new entry and, when full, removes the oldest; no entry is altered |
| `Assistant.CreateApp` | app/code_assistant.py:66-74 | capacity from `MAX_HISTORY_LENGTH` when present, else the default; generator from `OLLAMA` when present, else no arguments; the state invariant holds |
| `Assistant.MissingField` | app/code_assistant.py:183-185 | the missing-key message is the fixed prefix, the key and a closing quote, so the key can be read back |
| `Assistant.Run` | app/code_assistant.py:299-301 | running fails with the not-initialized message exactly when `create_app` was not called |
| `Assistant.ProcessInstruction` | app/code_assistant.py:162-191 | 200 with one new history entry exactly when both keys are present and generation succeeds; missing key 400; connection error 503; other error 500; history unchanged on every failure |
| `Assistant.ProcessGetModel` | app/code_assistant.py:216-226 | listed names in the server's order and current model with 200 exactly when listing succeeds, otherwise exactly 500 with the internal-error body |
| `Assistant.ProcessSetModel` | app/code_assistant.py:236-247 | 200 exactly when the key is present and the name servable, with only the model name and the initialized flag changed; 400 on an invalid name or missing key; 500 when unreachable; history untouched |
| `Assistant.GetHistoryRoute` | app/code_assistant.py:249-260 | 200 with the stored entries, oldest first, never more than the capacity |
| `Assistant.HistoryListsNewestLast` | app/code_assistant.py:168-181 | after a success the history listing ends with the new entry, holding the request's fields and the response's code and reply |
| `Assistant.HealthCheck` | app/code_assistant.py:272-287 | 200 healthy exactly when the server is reachable, otherwise 503 degraded |
| `Assistant.Handle` | app/code_assistant.py:95-126 | every route keeps the history well formed; only an instruction changes the history; the model, history and health reads change nothing |
| `Assistant.Serve` | app/code_assistant.py:95-126 | any sequence of requests keeps the history well formed |
| `Assistant.ProcessInstructionKeepsInvariant` | app/code_assistant.py:168-181 | an instruction request preserves the invariant: bounded history, each stored code equal to the extraction of its stored reply, named model |
| `Assistant.AddKeepsReproducible` | app/code_assistant.py:168-181 | appending an entry whose code is the extraction of its reply keeps every stored entry reproducible |
| `Assistant.ServeKeepsInvariant` | app/code_assistant.py:155-247 | every state reached through any request sequence to servers that serve no model named "" keeps that invariant |

## Left out

- Flask routing, CORS, `render_template`, `jsonify`, request parsing and logging: the handlers
  take the request fields they read as `Option<string>`. A JSON `null`, a non-string value and
  a body that is not JSON are not modelled.
- `app/app.py` and `app/config.py`: process bootstrap and constants, with no logic. The
  shipped `config` defines neither `OLLAMA` nor `MAX_HISTORY_LENGTH`, so both defaults apply
  there.
- The Ollama client's network calls (`list`, `pull`, `generate`): replaced by the `Backend`
  oracle. The oracle is fixed for one handler call: a successful pull does not add the name
  to the listed set, and a server cannot fail between two calls of one handler. Timeouts are
  not modelled.
- Errors other than connection errors raised by `list` inside `is_model_available`: the
  oracle's `reachable` flag stands for "listing succeeds".
- The `generate_kwargs` passed through to `generate`, and `ollama_host`: opaque configuration
  with no effect on the modelled logic.
- A `KeyError` raised from inside `generate_code`: it would give 400; the oracle's
  `Failed` reply stands for every other exception, which gives 500.
- The `datetime.now` timestamp of a history entry: dropped.
- Concurrency: the source has no locking, and each handler is modelled as one atomic step.
- The body of a user prompt function: an opaque function that builds a prompt or raises.
- `_index`: page rendering.
- The 500 "Failed to retrieve history" branch of `_get_history`: listing a history cannot
  raise in the model.

=== FILE: assistant.dfy ===
/** The request handlers of app/code_assistant.py as pure functions: each takes the
    application state (the generator and the history) or the part of it it reads, the
    Ollama oracle and the fields the handler reads from the request. The handlers that
    can change the state (instructions, model switch) give the new state with the
    response; the others give only the HTTP status with the JSON body's content. Flask
    routing, JSON parsing and logging are not modelled. */
module Assistant {
  import opened Results
  import opened Prompt
  import opened Extraction
  import opened Generator
  import opened History

  /** The fields `_process_instruction` reads from `request.json`: each key is absent or
      holds a string. */
  datatype InstructionRequest = InstructionRequest(userInstruction: Option<string>, userCode: Option<string>)

  /** The content of a JSON response body. */
  datatype Body =
    | Output(output: string, rawResponse: string)               // {"success": true, "output", "raw_response"}
    | Done                                                      // {"success": true}
    | Refused(error: string)                                    // {"success": false, "error"}
    | Error(error: string)                                      // {"error"}
    | Models(availableModels: seq<string>, currentModel: string)  // {"success": true, "available_models", "current_model"}
    | Entries(history: seq<Entry>)                              // {"success": true, "history"}
    | Healthy                                                   // {"status": "healthy", ...}
    | Degraded                                                  // {"status": "degraded", ...}

  /** An HTTP status with its body. */
  datatype Response = Response(status: int, body: Body)

  /** The state `create_app` sets up: the code generator and the history handler. */
  datatype App = App(generator: CodeGenerator, history: HistoryHandler)

  /** A handler's result: the state afterwards and the response. */
  datatype Handled = Handled(app: App, response: Response)

  /** The `OLLAMA` configuration entry: the keyword arguments given to the generator. */
  datatype GeneratorConfig = GeneratorConfig(ollamaModel: Option<string>, promptFunction: Option<PromptFunction>)

  /** The configuration keys `create_app` reads. */
  datatype AppConfig = AppConfig(ollama: Option<GeneratorConfig>, maxHistoryLength: Option<int>)

  const SERVICE_DOWN: string := "Ollama service is not available"
  const INTERNAL_ERROR: string := "Internal server error"
  const INVALID_MODEL: string := "Invalid model name"
  const NOT_INITIALIZED: string := "Application not initialized. Call create_app() first."

  /** The fixed start of the message for a missing key. */
  const MISSING_PREFIX: string := "Missing required field: '"

  /** The message for a missing key: Python renders a `KeyError` as the key in single
      quotes. The key can be read back from the message. */
  function MissingField(key: string): (m: string)
    ensures |m| == |MISSING_PREFIX| + |key| + 1
    ensures m[..|MISSING_PREFIX|] == MISSING_PREFIX
    ensures m[|MISSING_PREFIX|..|m| - 1] == key
    ensures m[|m| - 1] == '\''
  {
    MISSING_PREFIX + key + "'"
  }

  /** Every stored entry's code is what extraction makes of its stored reply. */
  ghost predicate Reproducible(h: HistoryHandler) {
    forall i :: 0 <= i < |h.entries| ==> Extract(h.entries[i].rawResponse) == h.entries[i].outputCode
  }

  /** What holds of every state the handlers can reach: a well-formed history whose
      entries are reproducible, and a named current model. */
  ghost predicate Invariant(app: App) {
    Valid(app.history) && Reproducible(app.history) && CurrentModelName(app.generator) != ""
  }

  /** `create_app`: the generator from the `OLLAMA` entry (or with no arguments) and the
      history with the `MAX_HISTORY_LENGTH` entry (or the default capacity). */
  function CreateApp(cfg: AppConfig, b: Backend): (app: App)
    ensures Invariant(app)
    ensures GetHistory(app.history) == []
    ensures cfg.maxHistoryLength.Some? && cfg.maxHistoryLength.value > 0 ==>
      app.history.capacity == cfg.maxHistoryLength.value
    ensures cfg.maxHistoryLength.None? || cfg.maxHistoryLength.value <= 0 ==>
      app.history.capacity == DEFAULT_MAX_LENGTH
    ensures cfg.ollama.None? ==> app.generator == NewGenerator(None, None, b)
    ensures cfg.ollama.Some? ==>
      app.generator == NewGenerator(cfg.ollama.value.ollamaModel, cfg.ollama.value.promptFunction, b)
  {
    var generator := match cfg.ollama
      case Some(g) => NewGenerator(g.ollamaModel, g.promptFunction, b)
      case None => NewGenerator(None, None, b);
    var history := match cfg.maxHistoryLength
      case Some(n) => NewHistory(n)
      case None => NewHistory(DEFAULT_MAX_LENGTH);
    App(generator, history)
  }

  /** `run`: refuses an application that `create_app` has not set up. */
  function Run(app: Option<App>): (r: Result<App, string>)
    ensures r.Ok? <==> app.Some?
    ensures r.Ok? ==> r.value == app.value
    ensures r.Err? ==> r.error == NOT_INITIALIZED
  {
    match app
    case Some(a) => Ok(a)
    case None => Err(NOT_INITIALIZED)
  }

  /** `_process_instruction`: both keys present and a reply from the model give 200 with
      the code and the reply, and exactly one new history entry; a missing key gives 400,
      an unreachable server 503 and any other failure 500, all with the history as it was. */
  function ProcessInstruction(app: App, b: Backend, req: InstructionRequest): (r: Handled)
    requires Valid(app.history)
    ensures Valid(r.app.history)
    ensures r.response.status in {200, 400, 500, 503}
    ensures req.userInstruction.None? ==>
      r == Handled(app, Response(400, Error(MissingField("userInstruction"))))
    ensures req.userInstruction.Some? && req.userCode.None? ==>
      r == Handled(app, Response(400, Error(MissingField("userCode"))))
    ensures r.response.status != 200 ==> r.app.history == app.history
    ensures r.response.status == 503 ==> r.response.body == Error(SERVICE_DOWN)
    ensures r.response.status == 500 ==> r.response.body == Error(INTERNAL_ERROR)
    ensures req.userInstruction.Some? && req.userCode.Some? ==>
      var instruction, code := req.userInstruction.value, req.userCode.value;
      var generation := GenerateCode(app.generator, b, instruction, Some(code));
      && r.app.generator == generation.generator
      && (r.response.status == 200 <==> generation.outcome.Ok?)
      && (r.response.status == 503 <==> generation.outcome == Err(ConnectionFault))
      && (r.response.status == 500 <==> generation.outcome == Err(OtherFault))
      && (generation.outcome.Ok? ==>
            var out := generation.outcome.value;
            && r.response.body == Output(out.outputCode, out.rawResponse)
            && r.app.history == Add(app.history, Entry(instruction, code, out.outputCode, out.rawResponse)))
  {
    match req.userInstruction
    case None => Handled(app, Response(400, Error(MissingField("userInstruction"))))
    case Some(instruction) =>
      match req.userCode
      case None => Handled(app, Response(400, Error(MissingField("userCode"))))
      case Some(code) =>
        var generation := GenerateCode(app.generator, b, instruction, Some(code));
        var after := app.(generator := generation.generator);
        match generation.outcome
        case Ok(out) =>
          var entry := Entry(instruction, code, out.outputCode, out.rawResponse);
          Handled(after.(history := Add(app.history, entry)), Response(200, Output(out.outputCode, out.rawResponse)))
        case Err(ConnectionFault) => Handled(after, Response(503, Error(SERVICE_DOWN)))
        case Err(OtherFault) => Handled(after, Response(500, Error(INTERNAL_ERROR)))
  }

  /** `_process_get_model`: the listed names and the current model, or 500 when listing
      raises. */
  function ProcessGetModel(app: App, b: Backend): (r: Response)
    ensures r.status == 200 <==> b.reachable
    ensures b.reachable ==> r.body == Models(b.listed, CurrentModelName(app.generator))
    ensures !b.reachable ==> r == Response(500, Error(INTERNAL_ERROR))
  {
    match ModelNames(b)
    case Ok(names) => Response(200, Models(names, CurrentModelName(app.generator)))
    case Err(_) => Response(500, Error(INTERNAL_ERROR))
  }

  /** `_process_set_model`: 200 once the server can serve the name and the generator has
      switched to it; 400 for a name it cannot serve or a missing key; 500 when the server
      cannot be reached. The history is never touched. */
  function ProcessSetModel(app: App, b: Backend, model: Option<string>): (r: Handled)
    ensures r.app.history == app.history
    ensures r.response.status == 200 <==> model.Some? && b.reachable && Servable(b, model.value)
    ensures r.response.status == 200 ==>
      && r.response.body == Done
      && CurrentModelName(r.app.generator) == model.value
      && r.app.generator.initialized
      && r.app.generator == app.generator.(model := model.value, initialized := true)
    ensures model.None? ==> r == Handled(app, Response(400, Error(MissingField("model"))))
    ensures model.Some? && b.reachable && !Servable(b, model.value) ==>
      r == Handled(app, Response(400, Refused(INVALID_MODEL)))
    ensures model.Some? && !b.reachable ==> r == Handled(app, Response(500, Error(INTERNAL_ERROR)))
  {
    match model
    case None => Handled(app, Response(400, Error(MissingField("model"))))
    case Some(name) =>
      match SetModel(app.generator, b, name)
      case Err(_) => Handled(app, Response(500, Error(INTERNAL_ERROR)))
      case Ok(switch) =>
        if switch.accepted then Handled(app.(generator := switch.generator), Response(200, Done))
        else Handled(app, Response(400, Refused(INVALID_MODEL)))
  }

  /** `_get_history`: 200 with the stored entries, oldest first. */
  function GetHistoryRoute(app: App): (r: Response)
    ensures r.status == 200
    ensures r.body == Entries(app.history.entries)
    ensures Valid(app.history) ==> |r.body.history| <= app.history.capacity
  {
    Response(200, Entries(GetHistory(app.history)))
  }

  /** After a successful instruction the history listing ends with the new entry, holding
      the request's instruction and code and the code and reply the response carried. */
  lemma HistoryListsNewestLast(app: App, b: Backend, req: InstructionRequest)
    requires Valid(app.history)
    ensures var r := ProcessInstruction(app, b, req);
      r.response.status == 200 ==>
        var listed := GetHistoryRoute(r.app).body.history;
        && 0 < |listed| <= app.history.capacity
        && listed[|listed| - 1] == Entry(req.userInstruction.value, req.userCode.value,
                                         r.response.body.output, r.response.body.rawResponse)
  {
  }

  /** `_health_check`: healthy exactly when the server can be reached. */
  function HealthCheck(b: Backend): (r: Response)
    ensures r.status == 200 <==> ServiceAvailable(b)
    ensures r.status == 200 ==> r.body == Healthy
    ensures r.status != 200 ==> r.status == 503 && r.body == Degraded
  {
    if ServiceAvailable(b) then Response(200, Healthy) else Response(503, Degraded)
  }

  /** One request to the application, with the server's state at that moment. */
  datatype Request =
    | PostInstruction(req: InstructionRequest)
    | GetModel
    | PostModel(model: Option<string>)
    | GetHistoryList
    | GetHealth

  /** The application's state after handling one request. */
  function Handle(app: App, b: Backend, request: Request): (r: App)
    requires Valid(app.history)
    ensures Valid(r.history)
    ensures !request.PostInstruction? ==> r.history == app.history
    ensures request.GetModel? || request.GetHistoryList? || request.GetHealth? ==> r == app
  {
    match request
    case PostInstruction(req) => ProcessInstruction(app, b, req).app
    case PostModel(model) => ProcessSetModel(app, b, model).app
    case _ => app
  }

  /** The application's state after a sequence of requests, each met by its own server state. */
  function Serve(app: App, trace: seq<(Backend, Request)>): (r: App)
    requires Valid(app.history)
    ensures Valid(r.history)
    decreases |trace|
  {
    if trace == [] then app else Serve(Handle(app, trace[0].0, trace[0].1), trace[1..])
  }

  /** A successful instruction keeps the stored entries reproducible: the new entry's
      code is what extraction makes of its reply, and the older entries are untouched. */
  lemma ProcessInstructionKeepsInvariant(app: App, b: Backend, req: InstructionRequest)
    requires Invariant(app)
    ensures Invariant(ProcessInstruction(app, b, req).app)
  {
    var r := ProcessInstruction(app, b, req);
    if r.response.status == 200 {
      var entry := Entry(req.userInstruction.value, req.userCode.value,
                         r.response.body.output, r.response.body.rawResponse);
      assert r.app.history == Add(app.history, entry);
      AddKeepsReproducible(app.history, entry);
    }
  }

  /** Appending an entry whose code is what extraction makes of its reply keeps every
      stored entry reproducible. */
  lemma AddKeepsReproducible(h: HistoryHandler, e: Entry)
    requires Valid(h) && Reproducible(h)
    requires Extract(e.rawResponse) == e.outputCode
    ensures Reproducible(Add(h, e))
  {
    var h' := Add(h, e);
    var n := |h'.entries|;
    forall i | 0 <= i < n
      ensures Extract(h'.entries[i].rawResponse) == h'.entries[i].outputCode
    {
      if i < n - 1 {
        if |h.entries| < h.capacity {
          assert h'.entries[..n - 1][i] == h.entries[i];
        } else {
          assert h'.entries[..n - 1][i] == h.entries[1..][i] == h.entries[i + 1];
        }
      }
    }
  }

  /** Every state reached from `create_app`, through any requests to servers that never
      serve a model named "", keeps the invariant. */
  lemma {:induction false} ServeKeepsInvariant(app: App, trace: seq<(Backend, Request)>)
    requires Invariant(app)
    requires forall i :: 0 <= i < |trace| ==> !Servable(trace[i].0, "")
    ensures Invariant(Serve(app, trace))
    decreases |trace|
  {
    if trace != [] {
      var (b, request) := trace[0];
      if request.PostInstruction? {
        ProcessInstructionKeepsInvariant(app, b, request.req);
      }
      ServeKeepsInvariant(Handle(app, b, request), trace[1..]);
    }
  }
}

=== FILE: extraction.dfy ===
/** Pulling the code out of the model's markdown reply (`_extract_code` in
    app/generator.py). The reply is returned unchanged unless it holds at least two
    "```" fences; then the first "```python\n" block is preferred over an earlier
    untagged one, any other language tag is kept, and at most one leading newline of
    the block is removed. Nothing is trimmed. */
module Extraction {
  import opened Results
  import opened Text

  /** `CODE_TOKEN`: the fence that opens and closes a markdown code block. */
  const FENCE: string := "```"

  /** `PYTHON_START_TOKEN`: the opening fence of a block tagged as Python, with its newline. */
  const PYTHON_TAG: string := "```python\n"

  /** The text with one leading newline removed, if it starts with one. */
  function DropNewline(s: string): (r: string)
    ensures |r| <= |s| && r == s[|s| - |r|..]
    ensures |r| == if StartsWith(s, "\n") then |s| - 1 else |s|
    ensures |r| < |s| <==> StartsWith(s, "\n")
  {
    if StartsWith(s, "\n") then s[1..] else s
  }

  /** `_extract_code`: what the reply's text yields as the output code. */
  function Extract(text: string): (code: string)
    ensures Count(text, FENCE) < 2 ==> code == text
    ensures Count(text, FENCE) >= 2 ==> Free(code, FENCE)
  {
    if Count(text, FENCE) < 2 then text
    else
      var inner := Split(Block(text), FENCE)[0];
      FreeDropNewline(inner, FENCE);
      DropNewline(inner)
  }

  /** The block `_extract_code` cuts out of a reply with two fences: what follows the
      first "```python\n" when there is one, what follows the first fence otherwise, in
      each case up to the next occurrence of that same opening. */
  function Block(text: string): string
    requires Count(text, FENCE) >= 2
  {
    if Contains(text, PYTHON_TAG) then Split(text, PYTHON_TAG)[1] else Split(text, FENCE)[1]
  }

  /** Dropping a leading newline keeps a string free of `sub`. */
  lemma FreeDropNewline(s: string, sub: string)
    requires Free(s, sub)
    ensures Free(DropNewline(s), sub)
  {
    var r := DropNewline(s);
    FreeSlice(s, sub, |s| - |r|, |s|);
    assert r == s[|s| - |r|..|s|];
  }

  /** A slice of a slice is a slice of the original. */
  lemma SliceOfSlice(s: string, a: nat, b: nat, c: nat, d: nat)
    requires a <= b <= |s|
    requires c <= d <= b - a
    ensures s[a..b][c..d] == s[a + c..a + d]
  {
    var inner, outer := s[a..b][c..d], s[a + c..a + d];
    forall t | 0 <= t < d - c ensures inner[t] == outer[t] {
    }
  }

  /** The first piece of `s[from:].split(sep)` runs up to the first separator, or to the
      end; the second piece is the first piece of what follows that separator. */
  lemma SplitPieces(s: string, sep: string, from: nat)
    requires |sep| > 0
    requires from <= |s|
    ensures match FindFrom(s, sep, from)
      case None => SplitFrom(s, sep, from)[0] == s[from..]
      case Some(i) =>
        && SplitFrom(s, sep, from)[0] == s[from..i]
        && SplitFrom(s, sep, from)[1] == SplitFrom(s, sep, i + |sep|)[0]
  {
    match FindFrom(s, sep, from)
    case None =>
    case Some(i) =>
      var rest := SplitFrom(s, sep, i + |sep|);
      assert SplitFrom(s, sep, from) == [s[from..i]] + rest;
  }

  /** A string without a separator splits into itself alone. */
  lemma SplitFree(s: string, sep: string)
    requires |sep| > 0
    requires Free(s, sep)
    ensures Split(s, sep)[0] == s
  {
    SplitPieces(s, sep, 0);
    assert s[0..] == s;
  }

  /** The "```python\n" tag begins with a fence. */
  lemma TagStartsWithFence(s: string, k: nat)
    requires OccursAt(s, PYTHON_TAG, k)
    ensures OccursAt(s, FENCE, k)
  {
    assert s[k..k + |FENCE|] == s[k..k + |PYTHON_TAG|][..|FENCE|];
  }

  /** Every "```python\n" tag in `s` begins with a fence. */
  lemma TagsStartWithFence(s: string)
    ensures forall k: nat :: OccursAt(s, PYTHON_TAG, k) ==> OccursAt(s, FENCE, k)
  {
    forall k: nat | OccursAt(s, PYTHON_TAG, k) ensures OccursAt(s, FENCE, k) {
      TagStartsWithFence(s, k);
    }
  }

  /** Without a "```python\n" tag anywhere, the code is the text strictly between the
      first fence and the next one after it, less one leading newline; a language tag
      written after the opening fence stays in the code. */
  lemma {:induction false} ExtractUntaggedBlock(text: string, open: nat, close: nat)
    requires Free(text, PYTHON_TAG)
    requires FirstFrom(text, FENCE, 0, open)
    requires FirstFrom(text, FENCE, open + |FENCE|, close)
    ensures Extract(text) == DropNewline(text[open + |FENCE|..close])
  {
    var start := open + |FENCE|;
    FindFromFirst(text, FENCE, 0, open);
    FindFromFirst(text, FENCE, start, close);
    TwoOccurrences(text, FENCE, 0, open, close);
    assert !Contains(text, PYTHON_TAG);
    SplitPieces(text, FENCE, 0);
    SplitPieces(text, FENCE, start);
    var block := text[start..close];
    assert Split(text, FENCE)[1] == block;
    FreeBetween(text, FENCE, start, close);
    SplitFree(block, FENCE);
  }

  /** With a "```python\n" tag, the code is the text after its first occurrence up to
      the next fence, less one leading newline — provided no further tag starts inside
      that fence (there `split` on the tag cuts before the fence instead). */
  lemma {:induction false} ExtractPythonBlock(text: string, tag: nat, close: nat)
    requires FirstFrom(text, PYTHON_TAG, 0, tag)
    requires FirstFrom(text, FENCE, tag + |PYTHON_TAG|, close)
    requires !OccursAt(text, PYTHON_TAG, close + 1) && !OccursAt(text, PYTHON_TAG, close + 2)
    ensures Extract(text) == DropNewline(text[tag + |PYTHON_TAG|..close])
  {
    var start := tag + |PYTHON_TAG|;
    TagStartsWithFence(text, tag);
    TwoOccurrences(text, FENCE, 0, tag, close);
    var end := TaggedBlock(text, tag);
    if close == end {
      FreeBetween(text, FENCE, start, close);
      SplitFree(text[start..end], FENCE);
    } else {
      if end < |text| {
        TagAfterFence(text, start, close, end);
      }
      CloseInBlock(text, start, end, close);
    }
  }

  /** A later tag than the first fence at or after `start`, starting at neither of the
      fence's next two characters, starts only after the fence ends. */
  lemma TagAfterFence(text: string, start: nat, close: nat, next: nat)
    requires FirstFrom(text, FENCE, start, close)
    requires start <= next && next != close
    requires OccursAt(text, PYTHON_TAG, next)
    requires !OccursAt(text, PYTHON_TAG, close + 1) && !OccursAt(text, PYTHON_TAG, close + 2)
    ensures close + |FENCE| <= next
  {
    TagStartsWithFence(text, next);
  }

  /** With a "```python\n" tag and no fence after it, the code is all the text after the
      tag's first occurrence, less one leading newline. */
  lemma {:induction false} PythonBlockUnclosed(text: string, tag: nat)
    requires Count(text, FENCE) >= 2
    requires FirstFrom(text, PYTHON_TAG, 0, tag)
    requires AbsentFrom(text, FENCE, tag + |PYTHON_TAG|)
    ensures Extract(text) == DropNewline(text[tag + |PYTHON_TAG|..])
  {
    var start := tag + |PYTHON_TAG|;
    TagsStartWithFence(text);
    var end := TaggedBlock(text, tag);
    assert end == |text|;
    FreeBetween(text, FENCE, start, end);
    SplitFree(text[start..end], FENCE);
    assert text[start..] == text[start..end];
  }

  /** With a "```python\n" tag first at `tag`, the block runs from just after the tag to
      its next occurrence, or to the end of the reply when there is none. */
  lemma TaggedBlock(text: string, tag: nat) returns (end: nat)
    requires Count(text, FENCE) >= 2
    requires FirstFrom(text, PYTHON_TAG, 0, tag)
    ensures tag + |PYTHON_TAG| <= end <= |text|
    ensures end == |text| || FirstFrom(text, PYTHON_TAG, tag + |PYTHON_TAG|, end)
    ensures Block(text) == text[tag + |PYTHON_TAG|..end]
  {
    var start := tag + |PYTHON_TAG|;
    FindFromFirst(text, PYTHON_TAG, 0, tag);
    assert Contains(text, PYTHON_TAG);
    SplitPieces(text, PYTHON_TAG, 0);
    SplitPieces(text, PYTHON_TAG, start);
    match FindFrom(text, PYTHON_TAG, start)
    case None =>
      end := |text|;
      assert text[start..] == text[start..end];
    case Some(next) =>
      end := next;
  }

  /** When the first fence at or after `start` lies wholly inside `text[start..end]`, the
      first piece of that slice split on fences ends right before it. */
  lemma CloseInBlock(text: string, start: nat, end: nat, close: nat)
    requires start <= end <= |text|
    requires FirstFrom(text, FENCE, start, close)
    requires close + |FENCE| <= end
    ensures Split(text[start..end], FENCE)[0] == text[start..close]
  {
    var block := text[start..end];
    var k := close - start;
    SliceOfSlice(text, start, end, k, k + |FENCE|);
    assert OccursAt(block, FENCE, k);
    forall j: nat | j < k ensures !OccursAt(block, FENCE, j) {
      SliceOfSlice(text, start, end, j, j + |FENCE|);
      assert !OccursAt(text, FENCE, start + j);
    }
    assert FirstFrom(block, FENCE, 0, k);
    FindFromFirst(block, FENCE, 0, k);
    SplitPieces(block, FENCE, 0);
    SliceOfSlice(text, start, end, 0, k);
  }

  /** Once the reply holds two fences, the extracted code holds none, so extracting again
      changes nothing. */
  lemma ExtractIdempotent(text: string)
    ensures Extract(Extract(text)) == Extract(text)
  {
    if Count(text, FENCE) >= 2 {
      var code := Extract(text);
      assert Count(code, FENCE) == 0;
    }
  }

  /** The extracted code is always a contiguous slice of the reply. */
  lemma {:induction false} ExtractIsSlice(text: string)
    ensures exists i, j :: 0 <= i <= j <= |text| && Extract(text) == text[i..j]
  {
    if Count(text, FENCE) < 2 {
      assert Extract(text) == text[0..|text|];
    } else {
      var a, b := BlockBounds(text);
      var block := text[a..b];
      var c, d := PieceBounds(block, FENCE, 0);
      SliceOfSlice(text, a, b, c, d);
      var inner := text[a + c..a + d];
      assert Split(block, FENCE)[0] == inner;
      var code := DropNewline(inner);
      assert Extract(text) == code;
      assert code == text[a + c + (|inner| - |code|)..a + d];
    }
  }

  /** The block `_extract_code` cuts out of a reply with two fences (the second piece of
      the split on the Python tag or on the fence) is the slice `text[a..b]`. */
  lemma BlockBounds(text: string) returns (a: nat, b: nat)
    requires Count(text, FENCE) >= 2
    ensures a <= b <= |text|
    ensures Block(text) == text[a..b]
  {
    if Contains(text, PYTHON_TAG) {
      var tag := Find(text, PYTHON_TAG).value;
      SplitPieces(text, PYTHON_TAG, 0);
      a, b := PieceBounds(text, PYTHON_TAG, tag + |PYTHON_TAG|);
    } else {
      var open := Find(text, FENCE).value;
      SplitPieces(text, FENCE, 0);
      a, b := PieceBounds(text, FENCE, open + |FENCE|);
    }
  }

  /** The first piece of `s[from:].split(sep)` is the slice `s[a..b]`. */
  lemma PieceBounds(s: string, sep: string, from: nat) returns (a: nat, b: nat)
    requires |sep| > 0
    requires from <= |s|
    ensures from == a <= b <= |s|
    ensures SplitFrom(s, sep, from)[0] == s[a..b]
  {
    SplitPieces(s, sep, from);
    a := from;
    match FindFrom(s, sep, from)
    case None =>
      b := |s|;
      assert s[from..] == s[a..b];
    case Some(i) =>
      b := i;
  }
}

/** Worked replies: the exact strings the extraction rules produce. */
module ExtractionExamples {
  import opened Text
  import opened Extraction

  /** A Python block inside prose: the fences, the tag and the prose go, the block's
      trailing newline stays. */
  lemma PythonBlockInProse(text: string)
    requires text == "Here:\n```python\nprint(1)\n```\nDone."
    ensures Extract(text) == "print(1)\n"
  {
    ProseLayout(text);
    ExtractPythonBlock(text, 6, 25);
  }

  /** Where the tag and the fences of the reply above sit. */
  lemma ProseLayout(text: string)
    requires text == "Here:\n```python\nprint(1)\n```\nDone."
    ensures FirstFrom(text, PYTHON_TAG, 0, 6)
    ensures FirstFrom(text, FENCE, 16, 25)
    ensures |text| == 34
    ensures text[16..25] == "print(1)\n" && !StartsWith("print(1)\n", "\n")
  {
    var prose := "Here:\n";
    forall t | 0 <= t < 6 ensures text[..6][t] == prose[t] {
      assert text[..6][t] == text[t];
    }
    assert text[..6] == prose;
    forall j: nat | j < 6 ensures !OccursAt(text, PYTHON_TAG, j) {
      assert prose[j] != '`' by {
        if j == 0 {} else if j == 1 {} else if j == 2 {} else if j == 3 {} else if j == 4 {} else {}
      }
      assert text[j..j + 10][0] == text[j] == text[..6][j] == prose[j];
    }
    forall t | 0 <= t < 10 ensures text[6..16][t] == PYTHON_TAG[t] {
      assert text[6..16][t] == text[6 + t];
    }
    forall j: nat | 16 <= j < 25 ensures !OccursAt(text, FENCE, j) {
      assert text[j..j + 3][0] == text[j];
    }
    assert text[25..28] == FENCE;
    forall t | 0 <= t < 9 ensures text[16..25][t] == "print(1)\n"[t] {
      assert text[16..25][t] == text[16 + t];
    }
    assert "print(1)\n"[..1][0] == 'p';
  }

  /** Another language's block: its tag is kept as the first line of the code. */
  lemma OtherLanguageKeepsTag(text: string)
    requires text == "```js\nx```"
    ensures Extract(text) == "js\nx"
  {
    assert text[..10] == text;
    assert text[3] != PYTHON_TAG[3];
    assert !OccursAt(text, PYTHON_TAG, 0);
    forall j: nat ensures !OccursAt(text, PYTHON_TAG, j) {
      if j == 0 {}
    }
    forall t | 0 <= t < 3 ensures text[0..3][t] == FENCE[t] {
      assert text[0..3][t] == text[t];
    }
    forall j: nat | 3 <= j < 7 ensures !OccursAt(text, FENCE, j) {
      assert text[j..j + 3][0] == text[j];
    }
    forall t | 0 <= t < 3 ensures text[7..10][t] == FENCE[t] {
      assert text[7..10][t] == text[7 + t];
    }
    forall t | 0 <= t < 4 ensures text[3..7][t] == "js\nx"[t] {
      assert text[3..7][t] == text[3 + t];
    }
    assert text[3..7] == "js\nx";
    assert "js\nx"[..1][0] == 'j';
    ExtractUntaggedBlock(text, 0, 7);
  }

  /** A closing fence inside a longer backtick run still ends the block when no tag starts
      inside it: the code is the text up to the fence. */
  lemma FourBacktickClose(text: string)
    requires text == "```python\nab````cd```"
    ensures Extract(text) == "ab"
  {
    assert text == PYTHON_TAG + "ab````cd" + FENCE;
    forall t | 0 <= t < 10 ensures text[0..10][t] == PYTHON_TAG[t] {
      assert text[0..10][t] == text[t];
    }
    assert OccursAt(text, PYTHON_TAG, 0);
    forall j: nat | 10 <= j < 12 ensures !OccursAt(text, FENCE, j) {
      assert text[j..j + 3][0] == text[j];
    }
    forall t | 0 <= t < 3 ensures text[12..15][t] == FENCE[t] {
      assert text[12..15][t] == text[12 + t];
    }
    assert OccursAt(text, FENCE, 12);
    assert |text| == 21;
    assert text[10..12] == "ab";
    assert "ab"[..1][0] == 'a';
    ExtractPythonBlock(text, 0, 12);
  }

  /** A Python block with no fence after it runs to the end of the reply. */
  lemma UnclosedPythonBlock(text: string)
    requires text == "```\n```python\nfoo"
    ensures Extract(text) == "foo"
  {
    UnclosedLayout(text);
    TagStartsWithFence(text, 4);
    TwoOccurrences(text, FENCE, 0, 0, 4);
    PythonBlockUnclosed(text, 4);
  }

  /** Where the fence and the tag of the reply above sit. */
  lemma UnclosedLayout(text: string)
    requires text == "```\n```python\nfoo"
    ensures OccursAt(text, FENCE, 0)
    ensures FirstFrom(text, PYTHON_TAG, 0, 4)
    ensures AbsentFrom(text, FENCE, 14)
    ensures text[14..] == "foo" && !StartsWith("foo", "\n")
  {
    assert |text| == 17;
    forall t | 0 <= t < 3 ensures text[0..3][t] == FENCE[t] {
      assert text[0..3][t] == text[t];
    }
    forall t | 0 <= t < 10 ensures text[4..14][t] == PYTHON_TAG[t] {
      assert text[4..14][t] == text[4 + t];
    }
    forall j: nat | j < 4 ensures !OccursAt(text, PYTHON_TAG, j) {
      assert text[j + 3] != 'p' by {
        if j == 0 {} else if j == 1 {} else if j == 2 {} else {}
      }
      assert text[j..j + 10][3] == text[j + 3] != PYTHON_TAG[3];
    }
    forall j: nat | 14 <= j ensures !OccursAt(text, FENCE, j) {
      if j == 14 {
        assert text[14..17][0] == 'f';
      }
    }
    assert text[14..] == "foo";
    assert "foo"[..1][0] == 'f';
  }

  /** Of a block opening with two newlines only the first is removed. */
  lemma OnlyOneNewlineDropped(text: string)
    requires text == "```\n\nx```"
    ensures Extract(text) == "\nx"
  {
    assert |text| == 9 < |PYTHON_TAG|;
    forall t | 0 <= t < 3 ensures text[0..3][t] == FENCE[t] {
      assert text[0..3][t] == text[t];
    }
    forall j: nat | 3 <= j < 6 ensures !OccursAt(text, FENCE, j) {
      assert text[j..j + 3][0] == text[j];
    }
    forall t | 0 <= t < 3 ensures text[6..9][t] == FENCE[t] {
      assert text[6..9][t] == text[6 + t];
    }
    forall t | 0 <= t < 3 ensures text[3..6][t] == "\n\nx"[t] {
      assert text[3..6][t] == text[3 + t];
    }
    assert text[3..6] == "\n\nx";
    assert "\n\nx"[..1] == "\n";
    assert "\n\nx"[1..] == "\nx";
    ExtractUntaggedBlock(text, 0, 6);
  }

  /** A closing fence that opens a longer backtick run: `split` on the tag cuts at the
      second "```python\n" two characters later, so the code is "``" although the next
      fence follows the tag immediately. This is why `ExtractPythonBlock` asks for no
      tag starting inside the closing fence. */
  lemma BacktickRunAfterTag(text: string)
    requires text == "```python\n`````python\nX```"
    ensures FirstFrom(text, FENCE, |PYTHON_TAG|, |PYTHON_TAG|)
    ensures Extract(text) == "``"
  {
    BacktickRunLayout(text);
    TagStartsWithFence(text, 0);
    TwoOccurrences(text, FENCE, 0, 0, 10);
    FindFromFirst(text, PYTHON_TAG, 0, 0);
    FindFromFirst(text, PYTHON_TAG, 10, 12);
    SplitPieces(text, PYTHON_TAG, 0);
    SplitPieces(text, PYTHON_TAG, 10);
    var block := text[10..12];
    assert Split(text, PYTHON_TAG)[1] == block;
    assert Free(block, FENCE);
    SplitFree(block, FENCE);
  }

  /** Where the tags and fences of the reply above sit. */
  lemma BacktickRunLayout(text: string)
    requires text == "```python\n`````python\nX```"
    ensures FirstFrom(text, PYTHON_TAG, 0, 0)
    ensures FirstFrom(text, PYTHON_TAG, 10, 12)
    ensures FirstFrom(text, FENCE, 10, 10)
    ensures text[10..12] == "``" && !StartsWith("``", "\n")
  {
    assert text == PYTHON_TAG + "``" + PYTHON_TAG + "X" + FENCE;
    forall t | 0 <= t < 10 ensures text[0..10][t] == PYTHON_TAG[t] {
      assert text[0..10][t] == text[t];
    }
    forall t | 0 <= t < 10 ensures text[12..22][t] == PYTHON_TAG[t] {
      assert text[12..22][t] == text[12 + t];
    }
    assert text[10..20][3] != PYTHON_TAG[3];
    assert text[11..21][3] != PYTHON_TAG[3];
    forall t | 0 <= t < 3 ensures text[10..13][t] == FENCE[t] {
      assert text[10..13][t] == text[10 + t];
    }
    assert "``"[..1][0] == '`';
  }
}

=== FILE: generator.dfy ===
/** The Ollama code generator of app/generator.py: which model it uses, how it falls
    back to the default model, how a model is switched, and one generation request.
    The Ollama server is an oracle passed in as a value: whether listing its models
    succeeds, which names it lists, which names a pull would fetch, and what it answers
    to a generate request for a model and a prompt. */
module Generator {
  import opened Results
  import opened Prompt
  import opened Extraction

  /** `DEFAULT_MODEL`: the model used when none is configured and the fallback. */
  const DEFAULT_MODEL: string := "llama3.2:1b"

  /** The server's answer to one generate request. */
  datatype Reply = Answered(text: string) | ConnectionRefused | Failed

  /** The Ollama server as the generator sees it. `reachable` says whether listing the
      models succeeds, `listed` holds the names listed, in the server's order; a pull of a
      name in `pullable` succeeds, any other pull fails. */
  datatype Backend = Backend(
    reachable: bool,
    listed: seq<string>,
    pullable: set<string>,
    generate: (string, string) -> Reply)

  /** Why a generator call raised: the server could not be reached (`ConnectionError`),
      or anything else. */
  datatype Fault = ConnectionFault | OtherFault

  /** The generator's own state: the model in use, whether it was confirmed available,
      and the optional user prompt function. */
  datatype CodeGenerator = CodeGenerator(
    model: string,
    initialized: bool,
    customPrompt: Option<PromptFunction>)

  /** The outcome of `_init_model`: whether a usable model was found, and the model the
      generator holds afterwards. */
  datatype Selection = Selection(ready: bool, model: string)

  /** The outcome of `set_model`: whether the name was accepted, and the generator after. */
  datatype Switch = Switch(accepted: bool, generator: CodeGenerator)

  /** A successful generation: the model's full reply and the code extracted from it. */
  datatype Generated = Generated(rawResponse: string, outputCode: string)

  /** The outcome of `generate_code`: the generator afterwards (its model may have fallen
      back even when the request then failed) and the result or the fault raised. */
  datatype Generation = Generation(generator: CodeGenerator, outcome: Result<Generated, Fault>)

  /** A model name the server can serve: listed already, or fetched by a pull. */
  ghost predicate Servable(b: Backend, name: string) {
    name in b.listed || name in b.pullable
  }

  /** `get_available_model_names`: the listed names, or the fault raised by listing. */
  function ModelNames(b: Backend): (r: Result<seq<string>, Fault>)
    ensures r.Ok? <==> b.reachable
    ensures r.Ok? ==> r.value == b.listed
    ensures r.Err? ==> r.error == ConnectionFault
  {
    if b.reachable then Ok(b.listed) else Err(ConnectionFault)
  }

  /** `is_service_available`: whether listing the models succeeds; every exception the
      listing raises reads as "not available". */
  function ServiceAvailable(b: Backend): (available: bool)
    ensures available <==> b.reachable
  {
    ModelNames(b).Ok?
  }

  /** `is_model_available`: true when the name is listed or a pull of it succeeds; the
      listing raises when the server cannot be reached. */
  function ModelAvailable(b: Backend, name: string): (r: Result<bool, Fault>)
    ensures r.Err? <==> !b.reachable
    ensures r.Err? ==> r.error == ConnectionFault
    ensures r.Ok? ==> (r.value <==> Servable(b, name))
  {
    match ModelNames(b)
    case Err(e) => Err(e)
    case Ok(names) =>
      if name in names then Ok(true)
      else Ok(name in b.pullable)
  }

  /** The model a configuration names: `DEFAULT_MODEL` when it names none or "". */
  function ConfiguredModel(configured: Option<string>): (m: string)
    ensures m != ""
    ensures configured.Some? && configured.value != "" ==> m == configured.value
    ensures configured.None? || configured.value == "" ==> m == DEFAULT_MODEL
  {
    match configured
    case Some(name) => if name == "" then DEFAULT_MODEL else name
    case None => DEFAULT_MODEL
  }

  /** `_init_model`: keep the model if the server can serve it; otherwise fall back to
      `DEFAULT_MODEL` if that one can be served; otherwise report failure and keep it. */
  function InitModel(model: string, b: Backend): (r: Result<Selection, Fault>)
    ensures r.Err? <==> !b.reachable
    ensures r.Err? ==> r.error == ConnectionFault
    ensures r.Ok? ==> (r.value.ready <==> Servable(b, model) || Servable(b, DEFAULT_MODEL))
    ensures r.Ok? ==> r.value.model == model || r.value.model == DEFAULT_MODEL
    ensures r.Ok? && Servable(b, model) ==> r.value.model == model
    ensures r.Ok? && r.value.ready ==> Servable(b, r.value.model)
    ensures r.Ok? && !r.value.ready ==> r.value.model == model
  {
    match ModelAvailable(b, model)
    case Err(e) => Err(e)
    case Ok(available) =>
      if available then Ok(Selection(true, model))
      else if model == DEFAULT_MODEL then Ok(Selection(false, model))
      else
        match ModelAvailable(b, DEFAULT_MODEL)
        case Err(e) => Err(e)
        case Ok(fallback) =>
          if fallback then Ok(Selection(true, DEFAULT_MODEL))
          else Ok(Selection(false, model))
  }

  /** The constructor: the configured model (or the default for a falsy one), confirmed
      through `_init_model` only when the server can be reached. */
  function NewGenerator(configured: Option<string>, customPrompt: Option<PromptFunction>, b: Backend): (g: CodeGenerator)
    ensures g.customPrompt == customPrompt
    ensures g.model != ""
    ensures g.model == ConfiguredModel(configured) || g.model == DEFAULT_MODEL
    ensures configured.None? || configured.value == "" ==> g.model == DEFAULT_MODEL
    ensures g.initialized <==>
      b.reachable && (Servable(b, ConfiguredModel(configured)) || Servable(b, DEFAULT_MODEL))
    ensures g.initialized ==> Servable(b, g.model)
    ensures !g.initialized ==> g.model == ConfiguredModel(configured)
    ensures b.reachable ==> g.model == InitModel(ConfiguredModel(configured), b).value.model
    ensures b.reachable && Servable(b, ConfiguredModel(configured)) ==> g.model == ConfiguredModel(configured)
  {
    var model := ConfiguredModel(configured);
    if ServiceAvailable(b) then
      match InitModel(model, b)
      case Ok(selection) => CodeGenerator(selection.model, selection.ready, customPrompt)
      case Err(_) => CodeGenerator(model, false, customPrompt)
    else CodeGenerator(model, false, customPrompt)
  }

  /** `get_current_model_name`: the model generation requests go to. */
  function CurrentModelName(g: CodeGenerator): (name: string)
    ensures name == g.model
  {
    g.model
  }

  /** `set_model`: switch to the name and mark the generator initialized when the server
      can serve it; otherwise refuse and change nothing. */
  function SetModel(g: CodeGenerator, b: Backend, name: string): (r: Result<Switch, Fault>)
    ensures r.Err? <==> !b.reachable
    ensures r.Err? ==> r.error == ConnectionFault
    ensures r.Ok? ==> (r.value.accepted <==> Servable(b, name))
    ensures r.Ok? && r.value.accepted ==>
      CurrentModelName(r.value.generator) == name && r.value.generator.initialized
      && r.value.generator.customPrompt == g.customPrompt
    ensures r.Ok? && !r.value.accepted ==> r.value.generator == g
  {
    match ModelAvailable(b, name)
    case Err(e) => Err(e)
    case Ok(available) =>
      if available then Ok(Switch(true, g.(model := name, initialized := true)))
      else Ok(Switch(false, g))
  }

  /** The prompt `generate_code` sends for an instruction and an optional code. */
  function RequestPrompt(g: CodeGenerator, instruction: string, code: Option<string>): string {
    GetPrompt(g.customPrompt, instruction, EffectiveCode(code))
  }

  /** The generation outcome a server reply stands for. */
  ghost predicate Reflects(reply: Reply, outcome: Result<Generated, Fault>) {
    match reply
    case Answered(text) => outcome == Ok(Generated(text, Extract(text)))
    case ConnectionRefused => outcome == Err(ConnectionFault)
    case Failed => outcome == Err(OtherFault)
  }

  /** `generate_code`: when not yet initialized, first run `_init_model` — its model
      fallback sticks but its result is dropped, so the flag stays unset — then send the
      prompt to the current model and extract the code from the reply. */
  function GenerateCode(g: CodeGenerator, b: Backend, instruction: string, code: Option<string>): (r: Generation)
    ensures r.generator.initialized == g.initialized
    ensures r.generator.customPrompt == g.customPrompt
    ensures r.generator.model == g.model || r.generator.model == DEFAULT_MODEL
    ensures g.initialized ==> r.generator == g
    ensures !g.initialized && b.reachable ==> r.generator.model == InitModel(g.model, b).value.model
    ensures !g.initialized && Servable(b, g.model) ==> r.generator.model == g.model
    ensures !g.initialized && b.reachable && !Servable(b, g.model) && Servable(b, DEFAULT_MODEL) ==>
      r.generator.model == DEFAULT_MODEL
    ensures !g.initialized && !b.reachable ==> r == Generation(g, Err(ConnectionFault))
    ensures g.initialized || b.reachable ==>
      Reflects(b.generate(CurrentModelName(r.generator), RequestPrompt(g, instruction, code)), r.outcome)
    ensures r.outcome.Ok? ==> r.outcome.value.outputCode == Extract(r.outcome.value.rawResponse)
  {
    var current := if g.initialized then Ok(g) else
      match InitModel(g.model, b)
      case Err(e) => Err(e)
      case Ok(selection) => Ok(g.(model := selection.model));
    match current
    case Err(e) => Generation(g, Err(e))
    case Ok(h) =>
      var outcome := match b.generate(h.model, RequestPrompt(h, instruction, code))
        case Answered(text) => Ok(Generated(text, Extract(text)))
        case ConnectionRefused => Err(ConnectionFault)
        case Failed => Err(OtherFault);
      Generation(h, outcome)
  }

  /** The current model never becomes empty: generation only keeps it or falls back to
      the default, and a switch to "" needs a server that serves "". */
  lemma ModelStaysNamed(g: CodeGenerator, b: Backend, name: string, instruction: string, code: Option<string>)
    requires CurrentModelName(g) != ""
    requires !Servable(b, "")
    ensures CurrentModelName(GenerateCode(g, b, instruction, code).generator) != ""
    ensures SetModel(g, b, name).Ok? ==> CurrentModelName(SetModel(g, b, name).value.generator) != ""
  {
  }

  /** Switching is idempotent, and a refused switch after an accepted one leaves the
      accepted model in place. */
  lemma SetModelTwice(g: CodeGenerator, b: Backend, first: string, second: string)
    requires b.reachable
    requires Servable(b, first)
    ensures var g1 := SetModel(g, b, first).value.generator;
      && SetModel(g1, b, first).value.generator == g1
      && (!Servable(b, second) ==> CurrentModelName(SetModel(g1, b, second).value.generator) == first)
  {
  }
}

=== FILE: history.dfy ===
/** The bounded interaction history of app/history.py: a deque with a maximum length,
    oldest entry first, where appending to a full history drops the oldest entry. */
module History {

  /** `DEFAULT_MAX_LENGTH`: the capacity used when none, or a non-positive one, is given. */
  const DEFAULT_MAX_LENGTH: int := 10

  /** `HistoryEntry`: one past interaction. Its creation timestamp is not modelled. */
  datatype Entry = Entry(instructions: string, code: string, outputCode: string, rawResponse: string)

  /** `HistoryHandler`: the effective capacity and the stored entries, oldest first. */
  datatype HistoryHandler = HistoryHandler(capacity: int, entries: seq<Entry>)

  /** What every handler built by `NewHistory` and grown by `Add` satisfies. */
  ghost predicate Valid(h: HistoryHandler) {
    h.capacity > 0 && |h.entries| <= h.capacity
  }

  /** The last `n` elements of `xs`, in their order (all of them when there are fewer). */
  function LastN<T>(xs: seq<T>, n: nat): (ys: seq<T>)
    ensures |ys| == if |xs| < n then |xs| else n
  {
    if |xs| <= n then xs else xs[|xs| - n..]
  }

  /** The constructor: an empty history whose capacity is the requested one when positive
      and `DEFAULT_MAX_LENGTH` otherwise. */
  function NewHistory(maxHistoryLength: int): (h: HistoryHandler)
    ensures Valid(h)
    ensures h.entries == []
    ensures maxHistoryLength > 0 ==> h.capacity == maxHistoryLength
    ensures maxHistoryLength <= 0 ==> h.capacity == DEFAULT_MAX_LENGTH
  {
    var capacity := if maxHistoryLength <= 0 then DEFAULT_MAX_LENGTH else maxHistoryLength;
    HistoryHandler(capacity, [])
  }

  /** `add_new_entry`: the entry goes last; a full history first loses its oldest entry,
      and every other entry stays, unchanged and in order. */
  function Add(h: HistoryHandler, e: Entry): (r: HistoryHandler)
    requires Valid(h)
    ensures Valid(r)
    ensures r.capacity == h.capacity
    ensures |r.entries| == if |h.entries| < h.capacity then |h.entries| + 1 else h.capacity
    ensures r.entries[|r.entries| - 1] == e
    ensures |h.entries| < h.capacity ==> r.entries[..|r.entries| - 1] == h.entries
    ensures |h.entries| == h.capacity ==> r.entries[..|r.entries| - 1] == h.entries[1..]
  {
    if |h.entries| < h.capacity then h.(entries := h.entries + [e])
    else h.(entries := h.entries[1..] + [e])
  }

  /** `get_history`: the stored entries in the order they were added, oldest first,
      never more than the capacity. */
  function GetHistory(h: HistoryHandler): (listed: seq<Entry>)
    ensures listed == h.entries
    ensures Valid(h) ==> |listed| <= h.capacity
  {
    h.entries
  }

  /** The history after appending `es` in order, one `add_new_entry` at a time. */
  function AddAll(h: HistoryHandler, es: seq<Entry>): (r: HistoryHandler)
    requires Valid(h)
    ensures Valid(r)
    ensures r.capacity == h.capacity
    decreases |es|
  {
    if es == [] then h else AddAll(Add(h, es[0]), es[1..])
  }

  /** Appending keeps exactly the newest `capacity` entries of everything seen so far. */
  lemma {:induction false} AddAllKeepsNewest(h: HistoryHandler, es: seq<Entry>)
    requires Valid(h)
    ensures GetHistory(AddAll(h, es)) == LastN(h.entries + es, h.capacity)
    decreases |es|
  {
    if es == [] {
      assert h.entries + es == h.entries;
    } else {
      var h1 := Add(h, es[0]);
      AddAllKeepsNewest(h1, es[1..]);
      AddKeepsNewest(h, es[0]);
      LastNAppend(h.entries + [es[0]], es[1..], h.capacity);
      assert h.entries + [es[0]] + es[1..] == h.entries + es;
    }
  }

  /** One append keeps the newest `capacity` entries. */
  lemma AddKeepsNewest(h: HistoryHandler, e: Entry)
    requires Valid(h)
    ensures Add(h, e).entries == LastN(h.entries + [e], h.capacity)
  {
    if |h.entries| == h.capacity {
      assert (h.entries + [e])[1..] == h.entries[1..] + [e];
    }
  }

  /** Taking the last `n` before appending more changes nothing about the last `n` after. */
  lemma LastNAppend<T>(xs: seq<T>, ys: seq<T>, n: nat)
    ensures LastN(LastN(xs, n) + ys, n) == LastN(xs + ys, n)
  {
    if |xs| > n {
      var k := |xs| - n;
      assert xs + ys == xs[..k] + (LastN(xs, n) + ys);
    }
  }

  /** From an empty history, N appends with capacity C leave the last min(N, C) entries
      appended, in the order they were appended. */
  lemma HistoryHoldsLastAppended(maxHistoryLength: int, es: seq<Entry>)
    ensures var h := NewHistory(maxHistoryLength);
      && |GetHistory(AddAll(h, es))| == (if |es| < h.capacity then |es| else h.capacity)
      && GetHistory(AddAll(h, es)) == LastN(es, h.capacity)
  {
    var h := NewHistory(maxHistoryLength);
    AddAllKeepsNewest(h, es);
    assert h.entries + es == es;
  }

  /** Every stored entry was appended at some point and none is altered: after an append
      each entry is either the new one or one that was stored before. */
  lemma AddOnlyAppendsOrEvicts(h: HistoryHandler, e: Entry)
    requires Valid(h)
    ensures forall x :: x in GetHistory(Add(h, e)) ==> x == e || x in GetHistory(h)
    ensures |GetHistory(h)| < h.capacity ==> multiset(GetHistory(Add(h, e))) == multiset(GetHistory(h)) + multiset{e}
    ensures |GetHistory(h)| == h.capacity ==>
      multiset(GetHistory(Add(h, e))) == multiset(GetHistory(h)) - multiset{h.entries[0]} + multiset{e}
  {
    var r := Add(h, e);
    if |h.entries| < h.capacity {
      assert r.entries == h.entries + [e];
    } else {
      assert h.entries == [h.entries[0]] + h.entries[1..];
      assert r.entries == h.entries[1..] + [e];
    }
  }
}

=== FILE: prompt.dfy ===
/** Building the prompt sent to the model (`_default_prompt_fn`, `_get_prompt` and the
    `user_code` defaulting of `generate_code` in app/generator.py). */
module Prompt {
  import opened Results

  /** The fixed pieces of the default prompt, around the instruction and the code. */
  const HEADER: string := "Based on this instructions:\n"
  const MIDDLE: string := "\n and provided python code:\n"
  const FOOTER: string := "\n generate python code."

  /** What stands in for the code when the caller gives none or an empty string. */
  const NO_CODE: string := "(no code provided)"

  /** What a user-supplied prompt function does on one call: build a prompt or raise. */
  datatype PromptReply = Built(text: string) | Raised

  /** A user-supplied prompt function, taking the instruction and the code. Its body is
      not part of this model. */
  type PromptFunction = (string, string) -> PromptReply

  /** `_default_prompt_fn`: the instruction and the code set into the fixed template. */
  function DefaultPrompt(instruction: string, code: string): (p: string)
    ensures |p| == |HEADER| + |instruction| + |MIDDLE| + |code| + |FOOTER|
    ensures p[..|HEADER|] == HEADER
    ensures p[|p| - |FOOTER|..] == FOOTER
  {
    HEADER + instruction + MIDDLE + code + FOOTER
  }

  /** Reads a default prompt back into its instruction, taken to be `n` characters long,
      and its code; `None` when `p` does not have the template's shape. */
  function ParsePrompt(p: string, n: nat): Option<(string, string)> {
    var a := |HEADER|;
    var b := a + n;
    var c := b + |MIDDLE|;
    if |p| < c + |FOOTER| then None
    else if p[..a] == HEADER && p[b..c] == MIDDLE && p[|p| - |FOOTER|..] == FOOTER
    then Some((p[a..b], p[c..|p| - |FOOTER|]))
    else None
  }

  /** The default prompt gives back its instruction and code: no information is lost. */
  lemma PromptRoundTrip(instruction: string, code: string)
    ensures ParsePrompt(DefaultPrompt(instruction, code), |instruction|) == Some((instruction, code))
  {
    var p := DefaultPrompt(instruction, code);
    var a := |HEADER|;
    var b := a + |instruction|;
    var c := b + |MIDDLE|;
    var d := c + |code|;
    assert p[a..b] == instruction;
    assert p[b..c] == MIDDLE;
    assert p[c..|p| - |FOOTER|] == p[c..d] == code;
  }

  /** Whatever reads back as an instruction and a code is exactly their default prompt. */
  lemma PromptParseSound(p: string, n: nat)
    requires ParsePrompt(p, n).Some?
    ensures var (instruction, code) := ParsePrompt(p, n).value;
      |instruction| == n && DefaultPrompt(instruction, code) == p
  {
    var (instruction, code) := ParsePrompt(p, n).value;
    var a := |HEADER|;
    var b := a + n;
    var c := b + |MIDDLE|;
    var e := |p| - |FOOTER|;
    FiveParts(p, a, b, c, e);
    assert p[..a] == HEADER && p[b..c] == MIDDLE && p[e..] == FOOTER;
  }

  /** A sequence is the concatenation of its slices between four ordered cut points. */
  lemma FiveParts<T>(p: seq<T>, a: nat, b: nat, c: nat, e: nat)
    requires a <= b <= c <= e <= |p|
    ensures p == p[..a] + p[a..b] + p[b..c] + p[c..e] + p[e..]
  {
    assert p == p[..a] + p[a..];
    assert p[a..] == p[a..b] + p[b..];
    assert p[b..] == p[b..c] + p[c..];
    assert p[c..] == p[c..e] + p[e..];
  }

  /** Two default prompts agree only when their instructions and codes do, for
      instructions of one length. */
  lemma DefaultPromptInjective(i1: string, c1: string, i2: string, c2: string)
    requires |i1| == |i2|
    requires DefaultPrompt(i1, c1) == DefaultPrompt(i2, c2)
    ensures i1 == i2 && c1 == c2
  {
    PromptRoundTrip(i1, c1);
    PromptRoundTrip(i2, c2);
  }

  /** `_get_prompt`: the user's prompt function when there is one and it returns, the
      default prompt when there is none or it raises. */
  function GetPrompt(custom: Option<PromptFunction>, instruction: string, code: string): (p: string)
    ensures custom.Some? && custom.value(instruction, code).Built? ==>
      p == custom.value(instruction, code).text
    ensures custom.None? || custom.value(instruction, code).Raised? ==>
      p == DefaultPrompt(instruction, code)
  {
    match custom
    case Some(f) =>
      (match f(instruction, code)
       case Built(text) => text
       case Raised => DefaultPrompt(instruction, code))
    case None => DefaultPrompt(instruction, code)
  }

  /** `user_code or "(no code provided)"`: a missing or empty code is replaced. */
  function EffectiveCode(code: Option<string>): (c: string)
    ensures c != ""
    ensures code.Some? && code.value != "" ==> c == code.value
    ensures code.None? || code.value == "" ==> c == NO_CODE
  {
    match code
    case Some(text) => if text == "" then NO_CODE else text
    case None => NO_CODE
  }
}

=== FILE: results.dfy ===
/** Failure-carrying values shared by every module of the model. */
module Results {

  /** A value that may be absent: a missing JSON key, an unset configuration entry,
      no custom prompt function. */
  datatype Option<+T> = None | Some(value: T)

  /** The outcome of a step that can raise: `Ok` carries the value, `Err` the error. */
  datatype Result<+T, +E> = Ok(value: T) | Err(error: E)
}

=== FILE: text.dfy ===
/** The Python `str` operations the code extractor relies on — `in`, `count`, `split`
    and `startswith` — over strings as sequences of characters. `FindFrom` and `Find`
    are the leftmost search on which `in`, `count` and `split` are built. Searching is
    left to right and occurrences are non-overlapping, as in Python. */
module Text {
  import opened Results

  /** `sub` occurs in `s` starting at index `k`. */
  ghost predicate OccursAt(s: string, sub: string, k: nat) {
    k + |sub| <= |s| && s[k..k + |sub|] == sub
  }

  /** `k` is the leftmost occurrence of `sub` in `s` at or after index `from`. */
  ghost predicate FirstFrom(s: string, sub: string, from: nat, k: nat) {
    && from <= k
    && OccursAt(s, sub, k)
    && forall j: nat :: from <= j < k ==> !OccursAt(s, sub, j)
  }

  /** `sub` does not occur in `s` at or after index `from`. */
  ghost predicate AbsentFrom(s: string, sub: string, from: nat) {
    forall j: nat :: from <= j ==> !OccursAt(s, sub, j)
  }

  /** `sub` does not occur anywhere in `s`. */
  ghost predicate Free(s: string, sub: string) {
    AbsentFrom(s, sub, 0)
  }

  /** Python's `s.find(sub, from)`: the leftmost occurrence at or after `from`. */
  function FindFrom(s: string, sub: string, from: nat): (r: Option<nat>)
    ensures r.Some? ==> FirstFrom(s, sub, from, r.value)
    ensures r.None? ==> AbsentFrom(s, sub, from)
    decreases |s| - from
  {
    if from + |sub| > |s| then None
    else if s[from..from + |sub|] == sub then Some(from)
    else FindFrom(s, sub, from + 1)
  }

  /** Python's `s.find(sub)`, with `None` for -1. */
  function Find(s: string, sub: string): (r: Option<nat>)
    ensures r.Some? ==> FirstFrom(s, sub, 0, r.value)
    ensures r.None? ==> Free(s, sub)
  {
    FindFrom(s, sub, 0)
  }

  /** Python's `sub in s`. */
  function Contains(s: string, sub: string): (b: bool)
    ensures b <==> exists k: nat :: OccursAt(s, sub, k)
  {
    Find(s, sub).Some?
  }

  /** Python's `s.startswith(prefix)`. */
  function StartsWith(s: string, prefix: string): (b: bool)
    ensures b <==> OccursAt(s, prefix, 0)
  {
    |prefix| <= |s| && s[..|prefix|] == prefix
  }

  /** Python's `s.count(sep, from)`: non-overlapping occurrences, scanning left to right. */
  function CountFrom(s: string, sep: string, from: nat): (n: nat)
    requires |sep| > 0
    requires from <= |s|
    ensures n == 0 <==> AbsentFrom(s, sep, from)
    decreases |s| - from
  {
    match FindFrom(s, sep, from)
    case None => 0
    case Some(i) => 1 + CountFrom(s, sep, i + |sep|)
  }

  /** Python's `s.count(sep)` for a non-empty separator. */
  function Count(s: string, sep: string): (n: nat)
    requires |sep| > 0
    ensures n == 0 <==> Free(s, sep)
  {
    CountFrom(s, sep, 0)
  }

  /** Python's `sep.join(pieces)`. */
  function Join(pieces: seq<string>, sep: string): string
    requires |pieces| > 0
  {
    if |pieces| == 1 then pieces[0] else pieces[0] + sep + Join(pieces[1..], sep)
  }

  /** Python's `s[from:].split(sep)` for a non-empty separator. */
  function SplitFrom(s: string, sep: string, from: nat): (pieces: seq<string>)
    requires |sep| > 0
    requires from <= |s|
    ensures |pieces| == CountFrom(s, sep, from) + 1
    ensures Join(pieces, sep) == s[from..]
    ensures forall k :: 0 <= k < |pieces| ==> Free(pieces[k], sep)
    ensures forall k :: 0 <= k < |pieces| - 1 ==> Free(pieces[k] + sep[..|sep| - 1], sep)
    decreases |s| - from
  {
    match FindFrom(s, sep, from)
    case None =>
      FreeBetween(s, sep, from, |s|);
      assert CountFrom(s, sep, from) == 0;
      assert s[from..] == s[from..|s|];
      [s[from..]]
    case Some(i) =>
      var rest := SplitFrom(s, sep, i + |sep|);
      CountStep(s, sep, from, i);
      SplitStep(s, sep, from, i, rest);
      [s[from..i]] + rest
  }

  /** `count` goes one past the leftmost separator and counts on from there. */
  lemma CountStep(s: string, sep: string, from: nat, i: nat)
    requires |sep| > 0
    requires from <= |s|
    requires FindFrom(s, sep, from) == Some(i)
    ensures i + |sep| <= |s|
    ensures CountFrom(s, sep, from) == 1 + CountFrom(s, sep, i + |sep|)
  {
    assert FirstFrom(s, sep, from, i);
    assert OccursAt(s, sep, i);
  }

  /** One step of `split`: cutting `s[from..]` at the leftmost separator `i` and putting the
      piece before it in front of the split of the remainder. */
  lemma SplitStep(s: string, sep: string, from: nat, i: nat, rest: seq<string>)
    requires |sep| > 0
    requires FirstFrom(s, sep, from, i)
    requires |rest| > 0
    requires Join(rest, sep) == s[i + |sep|..]
    requires forall k :: 0 <= k < |rest| ==> Free(rest[k], sep)
    requires forall k :: 0 <= k < |rest| - 1 ==> Free(rest[k] + sep[..|sep| - 1], sep)
    ensures Join([s[from..i]] + rest, sep) == s[from..]
    ensures forall k :: 0 <= k < |[s[from..i]] + rest| ==> Free(([s[from..i]] + rest)[k], sep)
    ensures forall k :: 0 <= k < |[s[from..i]] + rest| - 1 ==>
      Free(([s[from..i]] + rest)[k] + sep[..|sep| - 1], sep)
  {
    FreeBetween(s, sep, from, i);
    CutAt(s, sep, from, i);
    JoinCons(s[from..i], rest, sep);
    FirstCutLeftmost(s, sep, from, i);
    ConsLeftmost(s[from..i], rest, sep);
  }

  /** The first cut is leftmost: no occurrence of `sep` starts inside the piece before it,
      even one that overlaps the separator that ends the piece. */
  lemma FirstCutLeftmost(s: string, sep: string, from: nat, i: nat)
    requires |sep| > 0
    requires FirstFrom(s, sep, from, i)
    ensures Free(s[from..i] + sep[..|sep| - 1], sep)
  {
    assert s[i..i + |sep|] == sep;
    assert s[from..i] + sep[..|sep| - 1] == s[from..i + |sep| - 1];
    FreeBetween(s, sep, from, i + |sep| - 1);
  }

  /** Putting a leftmost-cut piece in front of pieces whose cuts are leftmost keeps every
      cut leftmost. */
  lemma ConsLeftmost(head: string, rest: seq<string>, sep: string)
    requires |sep| > 0
    requires Free(head + sep[..|sep| - 1], sep)
    requires forall k :: 0 <= k < |rest| - 1 ==> Free(rest[k] + sep[..|sep| - 1], sep)
    ensures forall k :: 0 <= k < |[head] + rest| - 1 ==> Free(([head] + rest)[k] + sep[..|sep| - 1], sep)
  {
    var pieces := [head] + rest;
    forall k | 0 <= k < |pieces| - 1 ensures Free(pieces[k] + sep[..|sep| - 1], sep) {
      if k > 0 {
        assert pieces[k] == rest[k - 1];
      }
    }
  }

  /** Putting a piece free of `sep` in front of pieces free of `sep`: the join grows by the
      piece and a separator, and every piece stays free of `sep`. */
  lemma JoinCons(head: string, rest: seq<string>, sep: string)
    requires |rest| > 0
    requires Free(head, sep)
    requires forall k :: 0 <= k < |rest| ==> Free(rest[k], sep)
    ensures Join([head] + rest, sep) == head + sep + Join(rest, sep)
    ensures forall k :: 0 <= k < |[head] + rest| ==> Free(([head] + rest)[k], sep)
  {
    var pieces := [head] + rest;
    assert pieces[1..] == rest;
    forall k | 0 <= k < |pieces| ensures Free(pieces[k], sep) {
      if k > 0 {
        assert pieces[k] == rest[k - 1];
      }
    }
  }

  /** Cutting `s[from..]` at an occurrence of `sep` at `i`. */
  lemma CutAt(s: string, sep: string, from: nat, i: nat)
    requires from <= i
    requires OccursAt(s, sep, i)
    ensures s[from..] == s[from..i] + sep + s[i + |sep|..]
  {
    assert s[i..i + |sep|] == sep;
    assert s[from..] == s[from..i] + s[i..i + |sep|] + s[i + |sep|..];
  }

  /** Python's `s.split(sep)` for a non-empty separator. */
  function Split(s: string, sep: string): (pieces: seq<string>)
    requires |sep| > 0
    ensures |pieces| == Count(s, sep) + 1
    ensures Join(pieces, sep) == s
    ensures forall k :: 0 <= k < |pieces| ==> Free(pieces[k], sep)
    ensures forall k :: 0 <= k < |pieces| - 1 ==> Free(pieces[k] + sep[..|sep| - 1], sep)
  {
    SplitFrom(s, sep, 0)
  }

  /** An occurrence inside the slice `s[a..b]` is an occurrence in `s`, shifted by `a`,
      that ends no later than `b`; and conversely. */
  lemma SliceOccurs(s: string, sub: string, a: nat, b: nat)
    requires a <= b <= |s|
    ensures forall m: nat {:trigger OccursAt(s[a..b], sub, m)} ::
      OccursAt(s[a..b], sub, m) <==> (a + m + |sub| <= b && OccursAt(s, sub, a + m))
  {
    forall m: nat ensures OccursAt(s[a..b], sub, m) <==> (a + m + |sub| <= b && OccursAt(s, sub, a + m)) {
      if a + m + |sub| <= b {
        var inner, outer := s[a..b][m..m + |sub|], s[a + m..a + m + |sub|];
        forall t | 0 <= t < |sub| ensures inner[t] == outer[t] {
        }
        assert inner == outer;
      }
    }
  }

  /** A slice holding no occurrence of `sub` that fits inside it is free of `sub`. */
  lemma FreeBetween(s: string, sub: string, a: nat, b: nat)
    requires a <= b <= |s|
    requires forall j: nat :: a <= j && j + |sub| <= b ==> !OccursAt(s, sub, j)
    ensures Free(s[a..b], sub)
  {
    SliceOccurs(s, sub, a, b);
    forall m: nat ensures !OccursAt(s[a..b], sub, m) {
      assert a + m + |sub| <= b ==> !OccursAt(s, sub, a + m);
    }
  }

  /** A slice of a string free of `sub` is itself free of `sub`. */
  lemma FreeSlice(s: string, sub: string, a: nat, b: nat)
    requires a <= b <= |s|
    requires Free(s, sub)
    ensures Free(s[a..b], sub)
  {
    FreeBetween(s, sub, a, b);
  }

  /** The leftmost occurrence is unique, so `FindFrom` is determined by it. */
  lemma FindFromFirst(s: string, sub: string, from: nat, k: nat)
    requires FirstFrom(s, sub, from, k)
    ensures FindFrom(s, sub, from) == Some(k)
  {
    var r := FindFrom(s, sub, from);
    assert OccursAt(s, sub, k);
    assert r.Some?;
    assert OccursAt(s, sub, r.value);
  }

  /** Two occurrences at or after `from`, the second starting after the first ends, make
      the count from `from` at least two. */
  lemma TwoOccurrences(s: string, sep: string, from: nat, a: nat, b: nat)
    requires |sep| > 0
    requires from <= a
    requires a + |sep| <= b
    requires OccursAt(s, sep, a)
    requires OccursAt(s, sep, b)
    ensures from <= |s| && CountFrom(s, sep, from) >= 2
  {
    var i := FindFrom(s, sep, from).value;
    CountFromPositive(s, sep, i + |sep|, b);
  }

  /** `s.count(sep) >= 2` holds exactly when `s` holds two occurrences of `sep` that do
      not overlap. */
  lemma CountAtLeastTwo(s: string, sep: string)
    requires |sep| > 0
    ensures Count(s, sep) >= 2 <==>
      exists a: nat, b: nat :: a + |sep| <= b && OccursAt(s, sep, a) && OccursAt(s, sep, b)
  {
    if Count(s, sep) >= 2 {
      var a := FindFrom(s, sep, 0).value;
      assert CountFrom(s, sep, a + |sep|) >= 1;
      var b := FindFrom(s, sep, a + |sep|).value;
      assert OccursAt(s, sep, a) && OccursAt(s, sep, b);
    }
    forall a: nat, b: nat | a + |sep| <= b && OccursAt(s, sep, a) && OccursAt(s, sep, b)
      ensures Count(s, sep) >= 2
    {
      TwoOccurrences(s, sep, 0, a, b);
    }
  }

  /** Any occurrence at or after `from` makes the count from there positive. */
  lemma CountFromPositive(s: string, sep: string, from: nat, k: nat)
    requires |sep| > 0
    requires from <= k
    requires OccursAt(s, sep, k)
    ensures from <= |s| && CountFrom(s, sep, from) > 0
  {
  }
}
